=== FILE: README.md ===
# Path similarity scoring, modelled in Dafny

This project models the scoring core of a drawing-comparison service. It
compares a user's hand-drawn path with a reference ("ground truth") path in
four stages:

1. `interpolate_path` resamples each polyline to `num_points` points, evenly
   spaced by arc length. A path that already has `num_points` points is
   returned unchanged.
2. `normalize_path` moves each path so that its centroid is the origin. It then
   divides by the Frobenius norm, unless that norm is 0.
3. `_best_circular_distance` tries every circular shift of the user path
   (`np.roll(a, -shift)`) and keeps the smallest mean point-to-point distance.
4. `calculate_similarity_score` turns that distance `d` into
   `max(0, 100 - (100 d) ^ 2.5)`. It returns the score, the distance and the
   normalised user path.

The model is split into five modules:

- `Geometry`: points, paths, sums and `np.roll`.
- `Resample`: stage 1.
- `Normalize`: stage 2.
- `Align`: stage 3.
- `Similarity`: stage 4.

Stand-ins for the source's numerics:

- **Norm.** Dafny's reals have no square root. The Euclidean norm is therefore
  a function parameter `norm`. Its assumed properties are collected in
  `Geometry.IsEuclideanNorm`:
  - it is non-negative, and 0 exactly on the zero vector;
  - it scales with a non-negative factor;
  - it does not change when the entries of the vector are reordered cyclically
    (`Geometry.RotateVector`). This is what makes it blind to rolling a path.
- **Power.** Likewise, `x ** 2.5` is a parameter `pow`. `Similarity.IsPow25`
  says it is 0 at 0, 1 at 1, and strictly increasing on the non-negative
  reals.
- **Repeated knots.** Consecutive coincident points give repeated arc lengths.
  No extra precondition is needed for them. Equal arc lengths always belong
  to equal points, so their coordinates agree. The segment search also always
  picks a segment of positive length, as numpy's binary search does.
- **Infinity.** Python's `float('inf')`, which the aligner returns for empty
  paths, is the `Infinite` case of `Align.ExtReal`.

## Model

| member | source | states |
|---|---|---|
| Geometry.RollAt | track_utils.py:31 | Row `i` of `np.roll(a, shift)` is row `(i - shift) mod N` of `a`, for every integer shift. |
| Geometry.RollBackIndex | track_utils.py:31 | Rolling back by `k` (`np.roll(a, -k)`) puts `a[(i + k) mod N]` at index `i`. |
| Resample.InterpolatePath | track_utils.py:5-14 | The result has exactly `num_points` points. A path that already has `num_points` points is returned as it is. |
| Resample.SegmentLengths | track_utils.py:9-10 | Each segment length is non-negative, and it is 0 exactly when the two consecutive points coincide. |
| Resample.ArcLengths | track_utils.py:9-10 | The cumulative lengths start at 0 and never decrease. Each entry adds the length of the next segment. |
| Resample.CumulativeSum | track_utils.py:10 | The running totals start at 0, have one more entry than the input, and each adds the next term. |
| Resample.SameArcLengthSamePoint | track_utils.py:9-10 | Two points with the same cumulative length are the same point, because every segment between them has length 0. |
| Resample.Linspace | track_utils.py:11 | The targets start at `start`, end at `stop` when there are at least two, are evenly spaced, and stay within the range. |
| Resample.InterpAtKnot | track_utils.py:12-13 | `Resample.Interp` (`np.interp`) at a knot returns that knot's value, even when several knots share one arc length (their values agree). |
| Resample.InterpLine | track_utils.py:12-13 | Between knots, `Resample.Interp` (`np.interp`) is the straight line through the pair of knots that surrounds the query. |
| Resample.InterpolateEndpoints | track_utils.py:9-14 | Resampling keeps the first point of the path and, with at least two targets, the last point. |
| Resample.InterpolateAtArcLength | track_utils.py:9-14 | Resampled point `k` lies on the polyline at arc length `linspace(0, total, N)[k]`, on a segment whose end lengths bracket it. |
| Resample.InterpolateTranslate | track_utils.py:9-14 | Moving every input point by one offset moves every resampled point by that offset. |
| Resample.ArcLengthsScale | track_utils.py:9-10 | Multiplying the path by `c >= 0` multiplies every cumulative length by `c`. |
| Resample.LinspaceScale | track_utils.py:11 | Targets up to `c * stop` are the targets up to `stop`, multiplied by `c`. |
| Geometry.FrobeniusNorm | track_utils.py:18 | The norm of the centred array is non-negative, and it is 0 exactly when every point is the origin. |
| Normalize.NormalizePath | track_utils.py:16-19 | The result is centred on the origin in both branches of the norm guard. The centred norm is 0 exactly when all points coincide; then nothing is divided and every point is the origin. Otherwise the result is the centred path multiplied by one positive scalar, and its Frobenius norm is 1. |
| Normalize.NormalizeTranslate | track_utils.py:16-19 | Moving the whole path by an offset does not change the normalised path. |
| Normalize.NormalizeScale | track_utils.py:16-19 | Multiplying the whole path by `c > 0` does not change the normalised path. |
| Normalize.NormalizeRollBack | track_utils.py:16-19 | Normalising a rolled path is the same as rolling the normalised path. |
| Align.MeanDistance | track_utils.py:32 | The mean point-to-point distance is non-negative. It is 0 exactly when the two paths are equal point for point. |
| Align.ShiftDistance | track_utils.py:31-32 | The candidate's mean distance is non-negative, and it is 0 exactly when `np.roll(a, -shift)` equals `b` point for point. |
| Align.BestOverShifts | track_utils.py:27-34 | After trying shifts `0..k-1`, the best is infinite exactly when no shift was tried. Otherwise it is non-negative, at most every tried shift's distance, and equal to one of them. |
| Align.CircularDistance | track_utils.py:21-35 | The result is infinite exactly for empty paths. Otherwise it is non-negative, it is the minimum over all `N` shifts, and some shift attains it. |
| Align.BestCircularDistance | track_utils.py:21-35 | The loop with its strict `d < best` update returns exactly `CircularDistance`. |
| Align.CircularDistanceZero | track_utils.py:29-35 | The best distance is 0 exactly when some roll of the user path coincides with the reference. |
| Align.RotationHasZeroDistance | track_utils.py:29-35 | If the reference is the user path read from index `k` on, the best distance is 0. |
| Align.CircularDistanceRollBack | track_utils.py:29-35 | Starting the user path at another point does not change the best distance. |
| Similarity.Score | track_utils.py:51 | The score lies in `[0, 100]`. It is 100 exactly when the distance is 0. An infinite distance scores 0. |
| Similarity.ScoreMonotone | track_utils.py:51 | A larger distance never gives a larger score. |
| Similarity.ScoreAtOneHundredth | track_utils.py:51 | A mean distance of 0.01 scores exactly 99. |
| Similarity.CalculateSimilarityScore | track_utils.py:37-54 | The returned path has `num_points` points. The distance is infinite exactly when `num_points` is 0, and is otherwise non-negative. The score lies in `[0, 100]` and is 100 exactly when the distance is 0. |
| Similarity.ComparisonUserCentred | track_utils.py:43-54 | The returned user path has its centroid at the origin. |
| Similarity.SelfComparison | track_utils.py:37-54 | A path compared with itself has distance 0 and scores 100. |
| Similarity.TranslationInvariance | track_utils.py:37-54 | Moving the user drawing by any offset leaves the whole result unchanged. |
| Similarity.ScaleInvarianceAtNumPoints | track_utils.py:37-54 | When both paths already have `num_points` points, multiplying the user path by `c > 0` and the reference by `e > 0` leaves the whole result unchanged. |
| Similarity.StartPointInvariance | track_utils.py:43-51 | When both paths already have `num_points` points, starting the user path at another point changes neither the distance nor the score. The restriction is needed: resampling an open polyline depends on which vertex comes first, because rolling the vertex list changes which segment is left out, so two rolls of one path resample differently. |
| Similarity.RotatedReference | track_utils.py:43-51 | When both paths already have `num_points` points and the reference is the user path read from index `k` on, the result is distance 0 and score 100. The restriction is needed for the same reason as in `Similarity.StartPointInvariance`: with resampling, the rolled open polyline is a different curve. |
| Similarity.SquareScenario | track_utils.py:37-54 | The unit square against the same square started from its second corner, at 4 points, scores 100 at distance 0. |

Two helpers carry no contract of their own and are read through the rows above: `Normalize.Centroid` is `np.mean(path, axis=0)` (track_utils.py:17), and `Align.PointDistances` is `np.linalg.norm(cand - b, axis=1)` (track_utils.py:32).

## Left out

- Floating point. Reals are exact: IEEE rounding, overflow and NaN are not modelled. A NaN distance, for example, would never replace `best`.
- Default argument. `num_points` defaults to 100 (track_utils.py:5 and :40). The model has no default parameters: the value is `Similarity.DefaultNumPoints`, and callers pass it explicitly.
- Rounding. `round(score, 2)` and `round(avg_dist, 4)` on the return values are not modelled; the model returns the unrounded values.
- `np.linalg.norm` and `** 2.5`. They are the parameters `norm` and `pow`, constrained only by the properties listed above. Nothing is proved that needs their exact values, such as the score of a particular non-zero distance other than 0.01.
- Inputs numpy rejects or broadcasts:
  - An empty path that must be resampled makes numpy raise. `InterpolatePath` requires a non-empty path unless it already has `num_points` points.
  - A negative `num_points` makes `np.linspace` raise, so `numPoints` is a `nat`.
  - The aligner requires both paths to have the same length, as they always do after resampling. numpy's broadcasting of a length-1 path is not modelled.
- `Align.BestCircularDistance` returns only the best distance, not the winning shift, because the code never returns the shift.
- Scale invariance when resampling happens. When both paths already have `num_points` points, the full comparison is proved unchanged by positive scaling (`Similarity.ScaleInvarianceAtNumPoints`). When a path is resampled, only the first two steps are proved: arc lengths scale (`Resample.ArcLengthsScale`) and so do the targets (`Resample.LinspaceScale`). The interpolation step divides by segment lengths, which kept the last step out of reach.
- Similarity.SquareScenario: the square scenario is proved only at 4 points, where resampling returns the paths unchanged. At 100 points the two open polylines are resampled differently, and the model makes no claim about their score.
- The score reaches 0 at a distance of `100^0.4 / 100`, about 0.063, as line 51 gives. This threshold is a consequence of the formula and is not stated as a lemma, because it needs the exact value of `pow`.
- `visualize_paths` (plotting to files), the HTTP service in `main.py`, the local runner in `run_local.py` and the request and response models in `models.py` are not part of this model. Their callers unpack two values from a function that returns three; that mismatch lies outside the modelled core.

=== FILE: align.dfy ===
/**
 The circular-shift aligner (`_best_circular_distance`): roll the first path
 back by every shift in turn, take the mean point-to-point distance to the
 second path, and keep the smallest value seen.
 */
module Align {
  import opened Geometry

  /**
   The running best of the search. It starts as Python's `float('inf')`,
   which is also what is returned when there are no shifts at all.
   */
  datatype ExtReal = Finite(value: real) | Infinite

  /** `d < best` in the loop, with every finite value below infinity. */
  predicate Below(d: real, best: ExtReal) {
    match best
    case Infinite => true
    case Finite(b) => d < b
  }

  /** The distances between the points with the same index. */
  function PointDistances(norm: seq<real> -> real, a: Path, b: Path): (r: seq<real>)
    requires IsEuclideanNorm(norm)
    requires |a| == |b|
    ensures |r| == |a|
    ensures forall i :: 0 <= i < |a| ==> r[i] == Distance(norm, a[i], b[i])
  {
    seq(|a|, i requires 0 <= i < |a| => Distance(norm, a[i], b[i]))
  }

  /** `np.linalg.norm(a - b, axis=1).mean()`. */
  function MeanDistance(norm: seq<real> -> real, a: Path, b: Path): (r: real)
    requires IsEuclideanNorm(norm)
    requires |a| == |b| > 0
    ensures 0.0 <= r
    ensures r == 0.0 <==> a == b
  {
    MeanOfDistances(norm, a, b);
    Sum(PointDistances(norm, a, b)) / |a| as real
  }

  lemma MeanOfDistances(norm: seq<real> -> real, a: Path, b: Path)
    requires IsEuclideanNorm(norm)
    requires |a| == |b| > 0
    ensures 0.0 <= Sum(PointDistances(norm, a, b)) / |a| as real
    ensures Sum(PointDistances(norm, a, b)) / |a| as real == 0.0 <==> a == b
  {
    var ds := PointDistances(norm, a, b);
    SumNonNegative(ds);
    SumZeroIffAllZero(ds);
    MeanZero(Sum(ds), |a| as real);
    if a != b {
      var i :| 0 <= i < |a| && a[i] != b[i];
      assert ds[i] != 0.0;
    }
  }

  lemma MeanZero(total: real, n: real)
    requires 0.0 <= total && n > 0.0
    ensures 0.0 <= total / n
    ensures total / n == 0.0 <==> total == 0.0
  {
  }

  /** The mean distance once `a` is rolled back by `shift` (`np.roll(a, -shift)`). */
  function ShiftDistance(norm: seq<real> -> real, a: Path, b: Path, shift: int): (r: real)
    requires IsEuclideanNorm(norm)
    requires |a| == |b| > 0
    ensures 0.0 <= r
    ensures r == 0.0 <==> Roll(a, -shift) == b
  {
    MeanDistance(norm, Roll(a, -shift), b)
  }

  /**
   The value of `best` after the shifts `0 .. k-1` have been tried: a new
   candidate replaces it only when strictly smaller.
   */
  function BestOverShifts(norm: seq<real> -> real, a: Path, b: Path, k: nat): (r: ExtReal)
    requires IsEuclideanNorm(norm)
    requires |a| == |b| && k <= |a|
    ensures r == Infinite <==> k == 0
    ensures r.Finite? ==> 0.0 <= r.value
    ensures forall s :: 0 <= s < k ==> r.Finite? && r.value <= ShiftDistance(norm, a, b, s)
    ensures k > 0 ==> exists s :: 0 <= s < k && r.value == ShiftDistance(norm, a, b, s)
  {
    if k == 0 then Infinite
    else
      var best := BestOverShifts(norm, a, b, k - 1);
      var d := ShiftDistance(norm, a, b, k - 1);
      if Below(d, best) then Finite(d) else best
  }

  /** `_best_circular_distance(a, b)`: the best over all `N` shifts. */
  function CircularDistance(norm: seq<real> -> real, a: Path, b: Path): (r: ExtReal)
    requires IsEuclideanNorm(norm)
    requires |a| == |b|
    ensures r == Infinite <==> |a| == 0
    ensures r.Finite? ==> 0.0 <= r.value
    ensures forall s :: 0 <= s < |a| ==> r.Finite? && r.value <= ShiftDistance(norm, a, b, s)
    ensures |a| > 0 ==> exists s :: 0 <= s < |a| && r.value == ShiftDistance(norm, a, b, s)
  {
    BestOverShifts(norm, a, b, |a|)
  }

  /** The search loop of `_best_circular_distance`. */
  method BestCircularDistance(norm: seq<real> -> real, a: Path, b: Path) returns (best: ExtReal)
    requires IsEuclideanNorm(norm)
    requires |a| == |b|
    ensures best == CircularDistance(norm, a, b)
  {
    var n := |a|;
    best := Infinite;
    for shift := 0 to n
      invariant best == BestOverShifts(norm, a, b, shift)
    {
      var cand := Roll(a, -shift);
      var d := MeanDistance(norm, cand, b);
      BestOverShiftsStep(norm, a, b, shift, d);
      if Below(d, best) {
        best := Finite(d);
      }
    }
  }

  /** One round of the loop: shift `k` is tried against the best so far. */
  lemma BestOverShiftsStep(norm: seq<real> -> real, a: Path, b: Path, k: int, d: real)
    requires IsEuclideanNorm(norm)
    requires |a| == |b| && 0 <= k < |a|
    requires d == MeanDistance(norm, Roll(a, -k), b)
    ensures BestOverShifts(norm, a, b, k + 1)
         == if Below(d, BestOverShifts(norm, a, b, k)) then Finite(d) else BestOverShifts(norm, a, b, k)
  {
  }

  // ---------------------------------------------------------------------------
  // Zero distance and circular rotations

  /** Rolling `a` back by `k` (`np.roll(a, -k)`) lays it exactly onto `b`. */
  predicate RollsOnto(a: Path, b: Path, k: int) {
    0 <= k < |a| && Roll(a, -k) == b
  }

  /**
   The best distance is 0 exactly when some roll of `a` coincides with `b`
   point for point.
   */
  lemma CircularDistanceZero(norm: seq<real> -> real, a: Path, b: Path)
    requires IsEuclideanNorm(norm)
    requires |a| == |b| > 0
    ensures CircularDistance(norm, a, b) == Finite(0.0)
        <==> exists k :: RollsOnto(a, b, k)
  {
    if CircularDistance(norm, a, b) == Finite(0.0) {
      var k := ZeroDistanceRoll(norm, a, b);
    }
    if k :| RollsOnto(a, b, k) {
      RollGivesZeroDistance(norm, a, b, k);
    }
  }

  /** A path is at distance 0 from itself, through shift 0. */
  lemma CircularDistanceSelf(norm: seq<real> -> real, a: Path)
    requires IsEuclideanNorm(norm)
    requires |a| > 0
    ensures CircularDistance(norm, a, a) == Finite(0.0)
  {
    assert RollsOnto(a, a, 0) by {
      RollBackSplit(a, 0);
    }
    CircularDistanceZero(norm, a, a);
  }

  lemma ZeroDistanceRoll(norm: seq<real> -> real, a: Path, b: Path) returns (k: int)
    requires IsEuclideanNorm(norm)
    requires |a| == |b| > 0
    requires CircularDistance(norm, a, b) == Finite(0.0)
    ensures RollsOnto(a, b, k)
  {
    var r := BestOverShifts(norm, a, b, |a|);
    k :| 0 <= k < |a| && r.value == ShiftDistance(norm, a, b, k);
  }

  lemma RollGivesZeroDistance(norm: seq<real> -> real, a: Path, b: Path, k: int)
    requires IsEuclideanNorm(norm)
    requires |a| == |b| > 0
    requires RollsOnto(a, b, k)
    ensures CircularDistance(norm, a, b) == Finite(0.0)
  {
    var r := BestOverShifts(norm, a, b, |a|);
    assert ShiftDistance(norm, a, b, k) == 0.0;
  }

  /**
   If `b` is `a` read from index `k` on (`b[i] == a[(i + k) mod N]`), the
   aligner finds distance 0.
   */
  lemma RotationHasZeroDistance(norm: seq<real> -> real, a: Path, b: Path, k: int)
    requires IsEuclideanNorm(norm)
    requires |a| == |b| && 0 <= k < |a|
    requires forall i :: 0 <= i < |b| ==> b[i] == a[(i + k) % |a|]
    ensures CircularDistance(norm, a, b) == Finite(0.0)
  {
    forall i | 0 <= i < |a| ensures Roll(a, -k)[i] == b[i] {
      RollBackIndex(a, k, i);
    }
    assert RollsOnto(a, b, k);
    CircularDistanceZero(norm, a, b);
  }

  // ---------------------------------------------------------------------------
  // Where the first path starts does not matter

  /** Rolling `a` back by `j` before the search only renames the shifts. */
  lemma ShiftDistanceRollBack(norm: seq<real> -> real, a: Path, b: Path, j: int, s: int)
    requires IsEuclideanNorm(norm)
    requires |a| == |b| && 0 <= j < |a| && 0 <= s < |a|
    ensures ShiftDistance(norm, Roll(a, -j), b, s) == ShiftDistance(norm, a, b, (j + s) % |a|)
  {
    RollBackTwice(a, j, s);
  }

  /**
   The aligner's answer does not depend on which point of `a` comes first:
   rolling `a` by any amount before the search gives the same best distance.
   */
  lemma CircularDistanceRollBack(norm: seq<real> -> real, a: Path, b: Path, j: int)
    requires IsEuclideanNorm(norm)
    requires |a| == |b| && 0 <= j < |a|
    ensures CircularDistance(norm, Roll(a, -j), b) == CircularDistance(norm, a, b)
  {
    var r1 := CircularDistance(norm, Roll(a, -j), b);
    var r2 := CircularDistance(norm, a, b);
    RolledNotBelow(norm, a, b, j);
    RolledNotAbove(norm, a, b, j);
    assert r1.Finite? && r2.Finite?;
  }

  lemma RolledNotBelow(norm: seq<real> -> real, a: Path, b: Path, j: int)
    requires IsEuclideanNorm(norm)
    requires |a| == |b| && 0 <= j < |a|
    ensures CircularDistance(norm, a, b).value <= CircularDistance(norm, Roll(a, -j), b).value
  {
    var n := |a|;
    var rolled := Roll(a, -j);
    var r1 := BestOverShifts(norm, rolled, b, n);
    var s1 :| 0 <= s1 < n && r1.value == ShiftDistance(norm, rolled, b, s1);
    ShiftDistanceRollBack(norm, a, b, j, s1);
    ModSmall(j + s1, n);
    var r2 := BestOverShifts(norm, a, b, n);
    assert r2.value <= ShiftDistance(norm, a, b, (j + s1) % n);
  }

  lemma RolledNotAbove(norm: seq<real> -> real, a: Path, b: Path, j: int)
    requires IsEuclideanNorm(norm)
    requires |a| == |b| && 0 <= j < |a|
    ensures CircularDistance(norm, Roll(a, -j), b).value <= CircularDistance(norm, a, b).value
  {
    var n := |a|;
    var rolled := Roll(a, -j);
    var r2 := BestOverShifts(norm, a, b, n);
    var s2 :| 0 <= s2 < n && r2.value == ShiftDistance(norm, a, b, s2);
    var t := ShiftBefore(j, s2, n);
    ShiftDistanceRollBack(norm, a, b, j, t);
    var r1 := BestOverShifts(norm, rolled, b, n);
    assert r1.value <= ShiftDistance(norm, rolled, b, t);
  }

  /** The shift `t` in `0 .. n-1` with `(j + t) mod n == s`. */
  lemma ShiftBefore(j: int, s: int, n: int) returns (t: int)
    requires 0 <= j < n && 0 <= s < n
    ensures 0 <= t < n && (j + t) % n == s
  {
    t := if j <= s then s - j else s - j + n;
    ModSmall(j + t, n);
  }
}

=== FILE: geometry.dfy ===
/**
 Points, paths, the Euclidean-norm oracle and real-valued sums shared by every
 stage of the path-similarity pipeline.

 A path is the `(N, 2)` numpy array of `track_utils.py`: an ordered sequence of
 points.

 Floating point is replaced by exact reals. numpy's `linalg.norm`, which needs a
 square root the reals of Dafny do not provide, is a parameter `norm` on flat
 real vectors; `IsEuclideanNorm` lists the facts about it that the model uses,
 each of them true of the Euclidean norm.
 */
module Geometry {

  datatype Point = Point(x: real, y: real)

  type Path = seq<Point>

  const Origin := Point(0.0, 0.0)

  function Add(p: Point, q: Point): Point {
    Point(p.x + q.x, p.y + q.y)
  }

  function Sub(p: Point, q: Point): Point {
    Point(p.x - q.x, p.y - q.y)
  }

  function Scale(p: Point, c: real): Point {
    Point(c * p.x, c * p.y)
  }

  /** The point a fraction `t` of the way from `p` to `q`. */
  function Lerp(p: Point, q: Point, t: real): Point {
    Point(p.x + t * (q.x - p.x), p.y + t * (q.y - p.y))
  }

  // ---------------------------------------------------------------------------
  // Flat real vectors and the norm oracle

  predicate IsZeroVector(v: seq<real>) {
    forall i :: 0 <= i < |v| ==> v[i] == 0.0
  }

  function ScaleVector(v: seq<real>, c: real): (r: seq<real>)
    ensures |r| == |v|
    ensures forall i :: 0 <= i < |v| ==> r[i] == c * v[i]
  {
    seq(|v|, i requires 0 <= i < |v| => c * v[i])
  }

  /** The entries of `v` read cyclically from index `k` on. */
  function RotateVector(v: seq<real>, k: int): seq<real> {
    if 0 <= k <= |v| then v[k..] + v[..k] else v
  }

  /**
   `norm` behaves as the Euclidean norm: it is non-negative, zero exactly on
   the zero vector, absolutely homogeneous, and blind to a cyclic reordering
   of the entries.
   */
  ghost predicate IsEuclideanNorm(norm: seq<real> -> real) {
    && (forall v :: 0.0 <= norm(v) && (norm(v) == 0.0 <==> IsZeroVector(v)))
    && (forall v, c {:trigger norm(ScaleVector(v, c))} ::
          0.0 <= c ==> norm(ScaleVector(v, c)) == c * norm(v))
    && (forall v, k {:trigger norm(RotateVector(v, k))} ::
          norm(RotateVector(v, k)) == norm(v))
  }

  /** A point as the row vector `[x, y]`. */
  function Coords(p: Point): seq<real> {
    [p.x, p.y]
  }

  /** Euclidean distance between two points: numpy's row-wise norm of `p - q`. */
  function Distance(norm: seq<real> -> real, p: Point, q: Point): (r: real)
    requires IsEuclideanNorm(norm)
    ensures 0.0 <= r
    ensures r == 0.0 <==> p == q
  {
    assert IsZeroVector(Coords(Sub(p, q))) <==> p == q by {
      if IsZeroVector(Coords(Sub(p, q))) {
        assert Coords(Sub(p, q))[0] == 0.0 && Coords(Sub(p, q))[1] == 0.0;
      }
    }
    norm(Coords(Sub(p, q)))
  }

  /** The distance between two rescaled points is the rescaled distance. */
  lemma DistanceScale(norm: seq<real> -> real, p: Point, q: Point, c: real)
    requires IsEuclideanNorm(norm)
    requires 0.0 <= c
    ensures Distance(norm, Scale(p, c), Scale(q, c)) == c * Distance(norm, p, q)
  {
    var u, w := Coords(Sub(Scale(p, c), Scale(q, c))), ScaleVector(Coords(Sub(p, q)), c);
    assert u[0] == w[0] && u[1] == w[1];
    assert u == w;
  }

  /** The row-major flattening of an (N, 2) array: x0, y0, x1, y1, ... */
  function Flatten(path: Path): (r: seq<real>)
    ensures |r| == 2 * |path|
  {
    seq(2 * |path|, i requires 0 <= i < 2 * |path| =>
      if i % 2 == 0 then path[i / 2].x else path[i / 2].y)
  }

  /** The Frobenius norm of an (N, 2) array: numpy's `linalg.norm` without an axis. */
  function FrobeniusNorm(norm: seq<real> -> real, path: Path): (r: real)
    requires IsEuclideanNorm(norm)
    ensures 0.0 <= r
    ensures r == 0.0 <==> forall i :: 0 <= i < |path| ==> path[i] == Origin
  {
    FlattenZero(path);
    norm(Flatten(path))
  }

  lemma FlattenZero(path: Path)
    ensures IsZeroVector(Flatten(path)) <==> forall i :: 0 <= i < |path| ==> path[i] == Origin
  {
    var f := Flatten(path);
    if IsZeroVector(f) {
      forall i | 0 <= i < |path| ensures path[i] == Origin {
        assert f[2 * i] == path[i].x;
        assert f[2 * i + 1] == path[i].y;
      }
    }
  }

  // ---------------------------------------------------------------------------
  // Sums of reals

  function Sum(xs: seq<real>): real {
    if |xs| == 0 then 0.0 else xs[0] + Sum(xs[1..])
  }

  lemma {:induction false} SumAppend(xs: seq<real>, ys: seq<real>)
    ensures Sum(xs + ys) == Sum(xs) + Sum(ys)
  {
    if |xs| == 0 {
      assert xs + ys == ys;
    } else {
      assert (xs + ys)[1..] == xs[1..] + ys;
      SumAppend(xs[1..], ys);
    }
  }

  /** Adding `c` to every term adds `|xs| * c` to the sum. */
  lemma {:induction false} SumShift(xs: seq<real>, ys: seq<real>, c: real)
    requires |xs| == |ys|
    requires forall i :: 0 <= i < |xs| ==> ys[i] == xs[i] + c
    ensures Sum(ys) == Sum(xs) + |xs| as real * c
  {
    if |xs| > 0 {
      SumShift(xs[1..], ys[1..], c);
    }
  }

  /** Multiplying every term by `c` multiplies the sum by `c`. */
  lemma {:induction false} SumScale(xs: seq<real>, ys: seq<real>, c: real)
    requires |xs| == |ys|
    requires forall i :: 0 <= i < |xs| ==> ys[i] == c * xs[i]
    ensures Sum(ys) == c * Sum(xs)
  {
    if |xs| > 0 {
      SumScale(xs[1..], ys[1..], c);
    }
  }

  lemma {:induction false} SumNonNegative(xs: seq<real>)
    requires forall i :: 0 <= i < |xs| ==> 0.0 <= xs[i]
    ensures 0.0 <= Sum(xs)
  {
    if |xs| > 0 {
      SumNonNegative(xs[1..]);
    }
  }

  lemma {:induction false} SumZero(xs: seq<real>)
    requires IsZeroVector(xs)
    ensures Sum(xs) == 0.0
  {
    if |xs| > 0 {
      SumZero(xs[1..]);
    }
  }

  /** A sum of non-negative terms is zero exactly when every term is zero. */
  lemma {:induction false} SumZeroIffAllZero(xs: seq<real>)
    requires forall i :: 0 <= i < |xs| ==> 0.0 <= xs[i]
    ensures Sum(xs) == 0.0 <==> IsZeroVector(xs)
  {
    if |xs| > 0 {
      SumZeroIffAllZero(xs[1..]);
      SumNonNegative(xs[1..]);
      if IsZeroVector(xs[1..]) && xs[0] == 0.0 {
        forall i | 0 <= i < |xs| ensures xs[i] == 0.0 {
          if i > 0 {
            assert xs[i] == xs[1..][i - 1];
          }
        }
      }
    }
  }

  /** A cyclic reordering of the terms leaves the sum unchanged. */
  lemma SumRotate(xs: seq<real>, k: int)
    ensures Sum(RotateVector(xs, k)) == Sum(xs)
  {
    if 0 <= k <= |xs| {
      assert xs == xs[..k] + xs[k..];
      SumAppend(xs[..k], xs[k..]);
      SumAppend(xs[k..], xs[..k]);
    }
  }

  // ---------------------------------------------------------------------------
  // Whole-path views and transforms

  /** The first column, `path[:, 0]`. */
  function Xs(path: Path): (r: seq<real>)
    ensures |r| == |path|
    ensures forall i :: 0 <= i < |path| ==> r[i] == path[i].x
  {
    seq(|path|, i requires 0 <= i < |path| => path[i].x)
  }

  /** The second column, `path[:, 1]`. */
  function Ys(path: Path): (r: seq<real>)
    ensures |r| == |path|
    ensures forall i :: 0 <= i < |path| ==> r[i] == path[i].y
  {
    seq(|path|, i requires 0 <= i < |path| => path[i].y)
  }

  /** Every point moved by the same offset (numpy's `path + v`). */
  function Translate(path: Path, v: Point): (r: Path)
    ensures |r| == |path|
    ensures forall i :: 0 <= i < |path| ==> r[i] == Add(path[i], v)
  {
    seq(|path|, i requires 0 <= i < |path| => Add(path[i], v))
  }

  /** Every point multiplied by the same scalar (numpy's `c * path`). */
  function ScalePath(path: Path, c: real): (r: Path)
    ensures |r| == |path|
    ensures forall i :: 0 <= i < |path| ==> r[i] == Scale(path[i], c)
  {
    seq(|path|, i requires 0 <= i < |path| => Scale(path[i], c))
  }

  lemma FlattenScale(path: Path, c: real)
    ensures Flatten(ScalePath(path, c)) == ScaleVector(Flatten(path), c)
  {
    var lhs, rhs := Flatten(ScalePath(path, c)), ScaleVector(Flatten(path), c);
    forall i | 0 <= i < |lhs| ensures lhs[i] == rhs[i] {
      assert ScalePath(path, c)[i / 2] == Scale(path[i / 2], c);
    }
  }

  /** The Frobenius norm of a rescaled path is the rescaled norm. */
  lemma FrobeniusNormScale(norm: seq<real> -> real, path: Path, c: real)
    requires IsEuclideanNorm(norm)
    requires 0.0 <= c
    ensures FrobeniusNorm(norm, ScalePath(path, c)) == c * FrobeniusNorm(norm, path)
  {
    FlattenScale(path, c);
  }

  // ---------------------------------------------------------------------------
  // np.roll along the first axis

  /**
   `np.roll(a, shift, axis=0)`: with `offset = shift % N`, the last `offset`
   rows move to the front. Python's `%` and Dafny's agree here, since both
   give a remainder in `0 .. N-1` for a positive `N`.
   */
  function Roll<T>(a: seq<T>, shift: int): (r: seq<T>)
    ensures |r| == |a|
  {
    if |a| == 0 then a
    else
      var offset := shift % |a|;
      a[|a| - offset..] + a[..|a| - offset]
  }

  /**
   Row `i` of `np.roll(a, shift)` is row `i - shift` of `a`, wrapped around:
   every row moves forward by `shift` places, for any shift, negative or
   larger than `N`.
   */
  lemma RollAt<T>(a: seq<T>, shift: int, i: int)
    requires 0 <= i < |a|
    ensures Roll(a, shift)[i] == a[(i - shift) % |a|]
  {
    var n := |a|;
    var offset := shift % n;
    var q := shift / n;
    assert shift == q * n + offset;
    if i < offset {
      ModUnique(i - shift, -q - 1, i - offset + n, n);
    } else {
      ModUnique(i - shift, -q, i - offset, n);
    }
  }

  /** Euclidean division has one remainder: `q * n + r` with `0 <= r < n` leaves `r`. */
  lemma ModUnique(x: int, q: int, r: int, n: int)
    requires 0 <= r < n
    requires x == q * n + r
    ensures x % n == r
  {
    var d := x / n;
    var m := q - d;
    assert x == d * n + x % n;
    assert m * n == x % n - r by {
      assert m * n == q * n - d * n;
    }
  }

  lemma ModSmall(x: int, n: int)
    requires 0 < n && 0 <= x < 2 * n
    ensures x % n == if x < n then x else x - n
  {
    if x >= n {
      assert x == 1 * n + (x - n);
    }
  }

  lemma NegativeMod(k: int, n: int)
    requires 0 <= k < n
    ensures (-k) % n == if k == 0 then 0 else n - k
  {
    if k > 0 {
      assert -k == (-1) * n + (n - k);
    }
  }

  /** Rolling back by `k` (`np.roll(a, -k)`) puts `a[(i + k) mod N]` at index `i`. */
  lemma RollBackIndex<T>(a: seq<T>, k: int, i: int)
    requires 0 <= k < |a| && 0 <= i < |a|
    ensures Roll(a, -k)[i] == a[(i + k) % |a|]
  {
    NegativeMod(k, |a|);
    ModSmall(i + k, |a|);
  }

  /** Rolling back by `j` and then by `s` is rolling back by `j + s`, wrapped around. */
  lemma RollBackTwice<T>(a: seq<T>, j: int, s: int)
    requires 0 <= j < |a| && 0 <= s < |a|
    ensures Roll(Roll(a, -j), -s) == Roll(a, -((j + s) % |a|))
  {
    var n := |a|;
    var js := (j + s) % n;
    ModSmall(j + s, n);
    var lhs, rhs := Roll(Roll(a, -j), -s), Roll(a, -js);
    forall i | 0 <= i < n ensures lhs[i] == rhs[i] {
      RollBackIndex(Roll(a, -j), s, i);
      var i' := (i + s) % n;
      ModSmall(i + s, n);
      RollBackIndex(a, j, i');
      RollBackIndex(a, js, i);
      ModSmall(i' + j, n);
      ModSmall(i + js, n);
      ModTriple(i, j, s, n);
    }
  }

  /** Both groupings of `i + s + j` agree once wrapped into `0 .. n-1`. */
  lemma ModTriple(i: int, j: int, s: int, n: int)
    requires 0 <= i < n && 0 <= j < n && 0 <= s < n
    ensures ((i + s) % n + j) % n == (i + (j + s) % n) % n
  {
    ModSmall(i + s, n);
    ModSmall(j + s, n);
    ModSmall((i + s) % n + j, n);
    ModSmall(i + (j + s) % n, n);
  }

  /** Rolling back by `k` is cutting the sequence at `k` and swapping the halves. */
  lemma RollBackSplit<T>(a: seq<T>, k: int)
    requires 0 <= k < |a|
    ensures Roll(a, -k) == a[k..] + a[..k]
  {
    NegativeMod(k, |a|);
  }

  /** A path rolled back by `k` flattens to its flattening rotated by `2 * k` entries. */
  lemma FlattenRollBack(path: Path, k: int)
    requires 0 <= k < |path|
    ensures Flatten(Roll(path, -k)) == RotateVector(Flatten(path), 2 * k)
  {
    RollBackSplit(path, k);
    var f := Flatten(path);
    var lhs, rhs := Flatten(Roll(path, -k)), RotateVector(f, 2 * k);
    assert |lhs| == |rhs|;
    forall i | 0 <= i < |lhs| ensures lhs[i] == rhs[i] {
      var rolled := Roll(path, -k);
      if i < 2 * (|path| - k) {
        assert rhs[i] == f[2 * k + i];
        assert rolled[i / 2] == path[k + i / 2];
        assert (2 * k + i) / 2 == k + i / 2 && (2 * k + i) % 2 == i % 2;
      } else {
        var i' := i - 2 * (|path| - k);
        assert rhs[i] == f[i'];
        assert rolled[i / 2] == path[i / 2 - (|path| - k)];
        assert i' / 2 == i / 2 - (|path| - k) && i' % 2 == i % 2;
      }
    }
  }

  /** Rolling the rows does not change the Frobenius norm. */
  lemma FrobeniusNormRollBack(norm: seq<real> -> real, path: Path, k: int)
    requires IsEuclideanNorm(norm)
    requires 0 <= k < |path|
    ensures FrobeniusNorm(norm, Roll(path, -k)) == FrobeniusNorm(norm, path)
  {
    FlattenRollBack(path, k);
  }
}

=== FILE: normalize.dfy ===
/**
 Centroid and scale normalisation (`normalize_path`): subtract the mean point,
 then divide by the Frobenius norm of the centred array unless that norm is 0.
 */
module Normalize {
  import opened Geometry

  /** `np.mean(path, axis=0)`: the coordinate-wise mean. */
  function Centroid(path: Path): Point
    requires |path| > 0
  {
    Point(Sum(Xs(path)) / |path| as real, Sum(Ys(path)) / |path| as real)
  }

  /**
   `path - np.mean(path, axis=0)`. An empty path stays empty: numpy subtracts a
   NaN mean from no rows at all.
   */
  function Centered(path: Path): (r: Path)
    ensures |r| == |path|
    ensures |path| > 0 ==> forall i :: 0 <= i < |path| ==> r[i] == Sub(path[i], Centroid(path))
  {
    if |path| == 0 then []
    else seq(|path|, i requires 0 <= i < |path| => Sub(path[i], Centroid(path)))
  }

  /** Every coordinate divided by the same non-zero scalar (numpy's `path / d`). */
  function DividePath(path: Path, d: real): (r: Path)
    requires d != 0.0
    ensures |r| == |path|
    ensures forall i :: 0 <= i < |path| ==> r[i] == Point(path[i].x / d, path[i].y / d)
  {
    seq(|path|, i requires 0 <= i < |path| => Point(path[i].x / d, path[i].y / d))
  }

  /**
   The second step of `normalize_path`: divide by the Frobenius norm unless it
   is 0, in which case the array is returned as it is.
   */
  function Rescale(norm: seq<real> -> real, centered: Path): (r: Path)
    requires IsEuclideanNorm(norm)
    ensures |r| == |centered|
  {
    var normVal := FrobeniusNorm(norm, centered);
    if normVal > 0.0 then DividePath(centered, normVal) else centered
  }

  /**
   `normalize_path(path)`: centre the path, then rescale it. The result is
   centred on the origin. The centred norm is 0 exactly when all points
   coincide; then nothing is divided and every point is the origin. Otherwise
   the centred path is multiplied by one positive factor, and the result has
   Frobenius norm 1.
   */
  function NormalizePath(norm: seq<real> -> real, path: Path): (r: Path)
    requires IsEuclideanNorm(norm)
    ensures |r| == |path|
    ensures |path| > 0 ==> Centroid(r) == Origin
    ensures FrobeniusNorm(norm, Centered(path)) == 0.0
        <==> (forall i, j :: 0 <= i < |path| && 0 <= j < |path| ==> path[i] == path[j])
    ensures FrobeniusNorm(norm, Centered(path)) == 0.0 ==>
      && r == Centered(path)
      && forall i :: 0 <= i < |r| ==> r[i] == Origin
    ensures FrobeniusNorm(norm, Centered(path)) > 0.0 ==>
      && (exists s :: s > 0.0 && r == ScalePath(Centered(path), s))
      && FrobeniusNorm(norm, r) == 1.0
  {
    var centered := Centered(path);
    CenteredSumsToZero(path);
    CenteredZeroIffCoincident(path);
    RescaleFacts(norm, centered);
    Rescale(norm, centered)
  }

  // ---------------------------------------------------------------------------
  // The centroid of the result is the origin

  /** Subtracting the mean leaves coordinates that sum to zero. */
  lemma CenteredSumsToZero(path: Path)
    ensures Sum(Xs(Centered(path))) == 0.0
    ensures Sum(Ys(Centered(path))) == 0.0
  {
    if |path| > 0 {
      var c := Centroid(path);
      var centered := Centered(path);
      SumShift(Xs(path), Xs(centered), -c.x);
      SumShift(Ys(path), Ys(centered), -c.y);
    }
  }

  /**
   Rescaling a path whose coordinates sum to zero keeps its mean at the
   origin, in both branches; in the dividing branch the result is the path
   times one positive factor and has norm 1.
   */
  lemma RescaleFacts(norm: seq<real> -> real, centered: Path)
    requires IsEuclideanNorm(norm)
    requires Sum(Xs(centered)) == 0.0 && Sum(Ys(centered)) == 0.0
    ensures |centered| > 0 ==> Centroid(Rescale(norm, centered)) == Origin
    ensures FrobeniusNorm(norm, centered) > 0.0 ==>
      && (exists s :: s > 0.0 && Rescale(norm, centered) == ScalePath(centered, s))
      && FrobeniusNorm(norm, Rescale(norm, centered)) == 1.0
  {
    if FrobeniusNorm(norm, centered) > 0.0 {
      var s := RescaleDivides(norm, centered);
      ScaledSumsToZero(centered, s);
      RescaleUnitNorm(norm, centered);
    }
    if |centered| > 0 {
      ZeroSumsCentroid(Rescale(norm, centered));
    }
  }

  /** Scaling a path whose coordinates sum to zero keeps those sums at zero. */
  lemma ScaledSumsToZero(path: Path, c: real)
    requires Sum(Xs(path)) == 0.0 && Sum(Ys(path)) == 0.0
    ensures Sum(Xs(ScalePath(path, c))) == 0.0 && Sum(Ys(ScalePath(path, c))) == 0.0
  {
    SumColumnsScale(path, c);
  }

  /** Multiplying every point by `c` multiplies both coordinate sums by `c`. */
  lemma SumColumnsScale(path: Path, c: real)
    ensures Sum(Xs(ScalePath(path, c))) == c * Sum(Xs(path))
    ensures Sum(Ys(ScalePath(path, c))) == c * Sum(Ys(path))
  {
    var scaled := ScalePath(path, c);
    var xs, xs' := Xs(path), Xs(scaled);
    var ys, ys' := Ys(path), Ys(scaled);
    forall i | 0 <= i < |path| ensures xs'[i] == c * xs[i] && ys'[i] == c * ys[i] {
      assert scaled[i] == Scale(path[i], c);
    }
    SumScale(xs, xs', c);
    SumScale(ys, ys', c);
  }

  /** Moving every point by `v` adds `N` times `v` to the coordinate sums. */
  lemma SumColumnsTranslate(path: Path, v: Point)
    ensures Sum(Xs(Translate(path, v))) == Sum(Xs(path)) + |path| as real * v.x
    ensures Sum(Ys(Translate(path, v))) == Sum(Ys(path)) + |path| as real * v.y
  {
    SumXsTranslate(path, v);
    SumYsTranslate(path, v);
  }

  lemma SumXsTranslate(path: Path, v: Point)
    ensures Sum(Xs(Translate(path, v))) == Sum(Xs(path)) + |path| as real * v.x
  {
    var moved := Translate(path, v);
    var xs, xs' := Xs(path), Xs(moved);
    forall i | 0 <= i < |path| ensures xs'[i] == xs[i] + v.x {
      assert moved[i] == Add(path[i], v);
    }
    SumShift(xs, xs', v.x);
  }

  lemma SumYsTranslate(path: Path, v: Point)
    ensures Sum(Ys(Translate(path, v))) == Sum(Ys(path)) + |path| as real * v.y
  {
    var moved := Translate(path, v);
    var ys, ys' := Ys(path), Ys(moved);
    forall i | 0 <= i < |path| ensures ys'[i] == ys[i] + v.y {
      assert moved[i] == Add(path[i], v);
    }
    SumShift(ys, ys', v.y);
  }

  /** A path whose coordinates sum to zero has its mean at the origin. */
  lemma ZeroSumsCentroid(path: Path)
    requires |path| > 0
    requires Sum(Xs(path)) == 0.0 && Sum(Ys(path)) == 0.0
    ensures Centroid(path) == Origin
  {
  }

  /** In the dividing branch every point is scaled by the same factor `1 / norm`. */
  lemma RescaleDivides(norm: seq<real> -> real, centered: Path) returns (s: real)
    requires IsEuclideanNorm(norm)
    requires FrobeniusNorm(norm, centered) > 0.0
    ensures s == 1.0 / FrobeniusNorm(norm, centered)
    ensures s > 0.0
    ensures Rescale(norm, centered) == ScalePath(centered, s)
  {
    var normVal := FrobeniusNorm(norm, centered);
    s := 1.0 / normVal;
    DivideIsScale(centered, normVal);
  }

  lemma DivideIsScale(path: Path, d: real)
    requires d > 0.0
    ensures DividePath(path, d) == ScalePath(path, 1.0 / d)
  {
    var r := DividePath(path, d);
    forall i | 0 <= i < |path| ensures r[i] == Scale(path[i], 1.0 / d) {
      DivideAsScale(path[i].x, d);
      DivideAsScale(path[i].y, d);
    }
  }

  lemma DivideAsScale(a: real, b: real)
    requires b > 0.0
    ensures a / b == (1.0 / b) * a
    ensures 1.0 / b > 0.0
  {
  }

  // ---------------------------------------------------------------------------
  // The two branches

  /** Every point equals the mean exactly when all points of the path coincide. */
  lemma CenteredZeroIffCoincident(path: Path)
    ensures (forall i :: 0 <= i < |path| ==> Centered(path)[i] == Origin)
        <==> (forall i, j :: 0 <= i < |path| && 0 <= j < |path| ==> path[i] == path[j])
  {
    if |path| > 0 {
      var centered := Centered(path);
      if forall i :: 0 <= i < |path| ==> centered[i] == Origin {
        forall i, j | 0 <= i < |path| && 0 <= j < |path| ensures path[i] == path[j] {
          assert Sub(path[i], Centroid(path)) == Origin;
          assert Sub(path[j], Centroid(path)) == Origin;
        }
      }
      if forall i, j :: 0 <= i < |path| && 0 <= j < |path| ==> path[i] == path[j] {
        CentroidOfCoincident(path);
      }
    }
  }

  /** The mean of copies of one point is that point. */
  lemma CentroidOfCoincident(path: Path)
    requires |path| > 0
    requires forall i :: 0 <= i < |path| ==> path[i] == path[0]
    ensures Centroid(path) == path[0]
  {
    var p := path[0];
    var zeros := seq(|path|, i requires 0 <= i < |path| => 0.0);
    SumZero(zeros);
    SumShift(zeros, Xs(path), p.x);
    SumShift(zeros, Ys(path), p.y);
    MeanShifted(0.0, Sum(Xs(path)), |path| as real, p.x);
    MeanShifted(0.0, Sum(Ys(path)), |path| as real, p.y);
  }

  /** Adding `n * v` to a total of `n` terms adds `v` to their mean. */
  lemma MeanShifted(total: real, shifted: real, n: real, v: real)
    requires n > 0.0
    requires shifted == total + n * v
    ensures shifted / n == total / n + v
  {
  }

  /** Multiplying a total by `c` multiplies the mean by `c`. */
  lemma MeanScaled(total: real, scaled: real, n: real, c: real)
    requires n > 0.0
    requires scaled == c * total
    ensures scaled / n == c * (total / n)
  {
  }

  lemma RescaleUnitNorm(norm: seq<real> -> real, centered: Path)
    requires IsEuclideanNorm(norm)
    requires FrobeniusNorm(norm, centered) > 0.0
    ensures exists s :: s > 0.0 && Rescale(norm, centered) == ScalePath(centered, s)
    ensures FrobeniusNorm(norm, Rescale(norm, centered)) == 1.0
  {
    var n := FrobeniusNorm(norm, centered);
    var s := RescaleDivides(norm, centered);
    FrobeniusNormScale(norm, centered, s);
    ReciprocalTimes(n, s);
  }

  lemma ReciprocalTimes(b: real, s: real)
    requires b > 0.0 && s == 1.0 / b
    ensures s * b == 1.0
  {
  }

  // ---------------------------------------------------------------------------
  // Invariances

  /** Moving every point by `v` moves the mean by `v`. */
  lemma CentroidTranslate(path: Path, v: Point)
    requires |path| > 0
    ensures Centroid(Translate(path, v)) == Add(Centroid(path), v)
  {
    var moved := Translate(path, v);
    SumColumnsTranslate(path, v);
    MeanShifted(Sum(Xs(path)), Sum(Xs(moved)), |path| as real, v.x);
    MeanShifted(Sum(Ys(path)), Sum(Ys(moved)), |path| as real, v.y);
  }

  /** Moving every point by the same offset does not change the centred path. */
  lemma CenteredTranslate(path: Path, v: Point)
    ensures Centered(Translate(path, v)) == Centered(path)
  {
    if |path| > 0 {
      CentroidTranslate(path, v);
      var lhs, rhs := Centered(Translate(path, v)), Centered(path);
      forall i | 0 <= i < |path| ensures lhs[i] == rhs[i] {
        assert lhs[i] == Sub(Add(path[i], v), Add(Centroid(path), v));
      }
    }
  }

  /** Moving every point by the same offset does not change the normalised path. */
  lemma NormalizeTranslate(norm: seq<real> -> real, path: Path, v: Point)
    requires IsEuclideanNorm(norm)
    ensures NormalizePath(norm, Translate(path, v)) == NormalizePath(norm, path)
  {
    CenteredTranslate(path, v);
  }

  /** Multiplying every point by `c` multiplies the mean by `c`. */
  lemma CentroidScale(path: Path, c: real)
    requires |path| > 0
    ensures Centroid(ScalePath(path, c)) == Scale(Centroid(path), c)
  {
    var scaled := ScalePath(path, c);
    SumColumnsScale(path, c);
    MeanScaled(Sum(Xs(path)), Sum(Xs(scaled)), |path| as real, c);
    MeanScaled(Sum(Ys(path)), Sum(Ys(scaled)), |path| as real, c);
  }

  /** Centring commutes with multiplying every point by the same scalar. */
  lemma CenteredScale(path: Path, c: real)
    ensures Centered(ScalePath(path, c)) == ScalePath(Centered(path), c)
  {
    if |path| > 0 {
      CentroidScale(path, c);
      var lhs, rhs := Centered(ScalePath(path, c)), ScalePath(Centered(path), c);
      forall i | 0 <= i < |path| ensures lhs[i] == rhs[i] {
        ScaleSub(path[i], Centroid(path), c);
      }
    }
  }

  lemma ScaleSub(p: Point, q: Point, c: real)
    ensures Sub(Scale(p, c), Scale(q, c)) == Scale(Sub(p, q), c)
  {
    assert c * p.x - c * q.x == c * (p.x - q.x);
    assert c * p.y - c * q.y == c * (p.y - q.y);
  }

  /** Multiplying every point by the same positive factor does not change the normalised path. */
  lemma NormalizeScale(norm: seq<real> -> real, path: Path, c: real)
    requires IsEuclideanNorm(norm)
    requires c > 0.0
    ensures NormalizePath(norm, ScalePath(path, c)) == NormalizePath(norm, path)
  {
    CenteredScale(path, c);
    RescaleScale(norm, Centered(path), c);
  }

  /** Rescaling does not see a positive factor applied beforehand. */
  lemma RescaleScale(norm: seq<real> -> real, centered: Path, c: real)
    requires IsEuclideanNorm(norm)
    requires c > 0.0
    ensures Rescale(norm, ScalePath(centered, c)) == Rescale(norm, centered)
  {
    var n := FrobeniusNorm(norm, centered);
    FrobeniusNormScale(norm, centered, c);
    if n > 0.0 {
      PositiveProduct(c, n);
      var scaled := ScalePath(centered, c);
      assert FrobeniusNorm(norm, scaled) == c * n;
      assert Rescale(norm, ScalePath(centered, c)) == DividePath(ScalePath(centered, c), c * n);
      DivideScaled(centered, n, c);
    } else {
      ScaleOrigins(centered, c);
    }
  }

  lemma PositiveProduct(a: real, b: real)
    requires a > 0.0 && b > 0.0
    ensures a * b > 0.0
  {
  }

  /** Scaling a path of origins leaves it unchanged. */
  lemma ScaleOrigins(path: Path, c: real)
    requires forall i :: 0 <= i < |path| ==> path[i] == Origin
    ensures ScalePath(path, c) == path
  {
    var scaled := ScalePath(path, c);
    forall i | 0 <= i < |path| ensures scaled[i] == path[i] {
      assert path[i] == Origin;
    }
  }

  /** Dividing a path scaled by `c` by a norm scaled by `c` undoes the scaling. */
  lemma DivideScaled(path: Path, n: real, c: real)
    requires n > 0.0 && c > 0.0
    ensures DividePath(ScalePath(path, c), c * n) == DividePath(path, n)
  {
    var lhs, rhs := DividePath(ScalePath(path, c), c * n), DividePath(path, n);
    forall i | 0 <= i < |path| ensures lhs[i] == rhs[i] {
      DivideCommon(path[i].x, n, c);
      DivideCommon(path[i].y, n, c);
    }
  }

  lemma DivideCommon(a: real, b: real, c: real)
    requires b != 0.0 && c != 0.0
    ensures (c * a) / (c * b) == a / b
  {
  }

  /** Rolling the rows back by `k` leaves the mean where it was. */
  lemma CentroidRollBack(path: Path, k: int)
    requires 0 <= k < |path|
    ensures Centroid(Roll(path, -k)) == Centroid(path)
  {
    SumXsRollBack(path, k);
    SumYsRollBack(path, k);
  }

  lemma SumXsRollBack(path: Path, k: int)
    requires 0 <= k < |path|
    ensures Sum(Xs(Roll(path, -k))) == Sum(Xs(path))
  {
    ColumnsRollBack(path, k);
    SumRotate(Xs(path), k);
  }

  lemma SumYsRollBack(path: Path, k: int)
    requires 0 <= k < |path|
    ensures Sum(Ys(Roll(path, -k))) == Sum(Ys(path))
  {
    ColumnsRollBack(path, k);
    SumRotate(Ys(path), k);
  }

  /** The columns of a rolled path are the columns of the path, rotated. */
  lemma ColumnsRollBack(path: Path, k: int)
    requires 0 <= k < |path|
    ensures Xs(Roll(path, -k)) == RotateVector(Xs(path), k)
    ensures Ys(Roll(path, -k)) == RotateVector(Ys(path), k)
  {
    var n := |path|;
    var rolled := Roll(path, -k);
    RollBackSplit(path, k);
    var xr, xv := Xs(rolled), RotateVector(Xs(path), k);
    var yr, yv := Ys(rolled), RotateVector(Ys(path), k);
    forall i | 0 <= i < n ensures xr[i] == xv[i] && yr[i] == yv[i] {
      if i < n - k {
        assert rolled[i] == path[i + k];
      } else {
        assert rolled[i] == path[i - (n - k)];
      }
    }
  }

  /** Centring commutes with rolling the rows. */
  lemma CenteredRollBack(path: Path, k: int)
    requires 0 <= k < |path|
    ensures Centered(Roll(path, -k)) == Roll(Centered(path), -k)
  {
    CentroidRollBack(path, k);
    var lhs, rhs := Centered(Roll(path, -k)), Roll(Centered(path), -k);
    forall i | 0 <= i < |path| ensures lhs[i] == rhs[i] {
      RollBackIndex(path, k, i);
      RollBackIndex(Centered(path), k, i);
    }
  }

  /** Rescaling commutes with rolling the rows. */
  lemma RescaleRollBack(norm: seq<real> -> real, centered: Path, k: int)
    requires IsEuclideanNorm(norm)
    requires 0 <= k < |centered|
    ensures Rescale(norm, Roll(centered, -k)) == Roll(Rescale(norm, centered), -k)
  {
    var n := FrobeniusNorm(norm, centered);
    FrobeniusNormRollBack(norm, centered, k);
    if n > 0.0 {
      assert Rescale(norm, Roll(centered, -k)) == DividePath(Roll(centered, -k), n);
      DivideRollBack(centered, n, k);
    }
  }

  /** Dividing commutes with rolling the rows. */
  lemma DivideRollBack(path: Path, d: real, k: int)
    requires d != 0.0
    requires 0 <= k < |path|
    ensures DividePath(Roll(path, -k), d) == Roll(DividePath(path, d), -k)
  {
    var lhs, rhs := DividePath(Roll(path, -k), d), Roll(DividePath(path, d), -k);
    forall i | 0 <= i < |path| ensures lhs[i] == rhs[i] {
      RollBackIndex(path, k, i);
      RollBackIndex(DividePath(path, d), k, i);
    }
  }

  /** Rolling the rows commutes with normalisation. */
  lemma NormalizeRollBack(norm: seq<real> -> real, path: Path, k: int)
    requires IsEuclideanNorm(norm)
    requires 0 <= k < |path|
    ensures NormalizePath(norm, Roll(path, -k)) == Roll(NormalizePath(norm, path), -k)
  {
    CenteredRollBack(path, k);
    RescaleRollBack(norm, Centered(path), k);
  }
}

=== FILE: resample.dfy ===
/**
 Arc-length resampling of a polyline (`interpolate_path`): cumulative segment
 lengths, `np.linspace` targets from 0 to the total length, and `np.interp` of
 each coordinate against the cumulative lengths.
 */
module Resample {
  import opened Geometry

  predicate NonDecreasing(xs: seq<real>) {
    forall i, j :: 0 <= i <= j < |xs| ==> xs[i] <= xs[j]
  }

  // ---------------------------------------------------------------------------
  // Cumulative arc length

  /** `np.linalg.norm(np.diff(path, axis=0), axis=1)`: the length of each segment. */
  function SegmentLengths(norm: seq<real> -> real, path: Path): (r: seq<real>)
    requires IsEuclideanNorm(norm)
    requires |path| >= 1
    ensures |r| == |path| - 1
    ensures forall i :: 0 <= i < |r| ==> 0.0 <= r[i]
    ensures forall i :: 0 <= i < |r| ==> (r[i] == 0.0 <==> path[i] == path[i + 1])
  {
    seq(|path| - 1, i requires 0 <= i < |path| - 1 => Distance(norm, path[i + 1], path[i]))
  }

  /**
   `np.insert(np.cumsum(xs), 0, 0)`: entry `i` is the sum of the first `i`
   terms of `xs`, so the totals start at 0 and each adds the next term.
   */
  function CumulativeSum(xs: seq<real>): (r: seq<real>)
    ensures |r| == |xs| + 1
    ensures r[0] == 0.0
    ensures forall i :: 0 <= i < |xs| ==> r[i + 1] == r[i] + xs[i]
  {
    forall i | 0 <= i < |xs| ensures Sum(xs[..i + 1]) == Sum(xs[..i]) + xs[i] {
      SumPrefixStep(xs, i);
    }
    seq(|xs| + 1, i requires 0 <= i <= |xs| => Sum(xs[..i]))
  }

  /** Extending a prefix by one term adds that term to its sum. */
  lemma SumPrefixStep(xs: seq<real>, i: nat)
    requires i < |xs|
    ensures Sum(xs[..i + 1]) == Sum(xs[..i]) + xs[i]
  {
    assert xs[..i + 1] == xs[..i] + [xs[i]];
    SumAppend(xs[..i], [xs[i]]);
  }

  /** Running totals of non-negative terms never decrease. */
  lemma CumulativeSumNonDecreasing(xs: seq<real>)
    requires forall i :: 0 <= i < |xs| ==> 0.0 <= xs[i]
    ensures NonDecreasing(CumulativeSum(xs))
  {
    var r := CumulativeSum(xs);
    forall i, j | 0 <= i <= j < |r| ensures r[i] <= r[j] {
      CumulativeSumStep(xs, i, j);
    }
  }

  lemma {:induction false} CumulativeSumStep(xs: seq<real>, i: nat, j: nat)
    requires forall k :: 0 <= k < |xs| ==> 0.0 <= xs[k]
    requires i <= j <= |xs|
    ensures CumulativeSum(xs)[i] <= CumulativeSum(xs)[j]
    decreases j - i
  {
    if i < j {
      CumulativeSumStep(xs, i + 1, j);
    }
  }

  /** The cumulative arc length `dist`: `dist[i]` is the length of the polyline up to point `i`. */
  function ArcLengths(norm: seq<real> -> real, path: Path): (dist: seq<real>)
    requires IsEuclideanNorm(norm)
    requires |path| >= 1
    ensures |dist| == |path|
    ensures dist[0] == 0.0
    ensures NonDecreasing(dist)
    ensures forall i :: 0 <= i < |path| - 1 ==> dist[i + 1] == dist[i] + Distance(norm, path[i + 1], path[i])
  {
    var lengths := SegmentLengths(norm, path);
    CumulativeSumNonDecreasing(lengths);
    CumulativeSum(lengths)
  }

  /** Two points at the same arc length coincide: everything between them has length zero. */
  lemma {:induction false} SameArcLengthSamePoint(norm: seq<real> -> real, path: Path, i: nat, j: nat)
    requires IsEuclideanNorm(norm)
    requires i <= j < |path|
    requires ArcLengths(norm, path)[i] == ArcLengths(norm, path)[j]
    ensures path[i] == path[j]
    decreases j - i
  {
    if i < j {
      var dist := ArcLengths(norm, path);
      assert dist[i] <= dist[i + 1] <= dist[j];
      assert Distance(norm, path[i + 1], path[i]) == 0.0;
      SameArcLengthSamePoint(norm, path, i + 1, j);
    }
  }

  // ---------------------------------------------------------------------------
  // np.linspace

  /**
   `np.linspace(start, stop, num)`: `num` evenly spaced values, the first one
   `start` and (when there are at least two) the last one `stop`.
   */
  function Linspace(start: real, stop: real, num: nat): (u: seq<real>)
    ensures |u| == num
    ensures num >= 1 ==> u[0] == start
    ensures num >= 2 ==> u[num - 1] == stop
    ensures num >= 2 ==> forall k :: 0 <= k < num - 1 ==> u[k + 1] - u[k] == (stop - start) / (num - 1) as real
    ensures start <= stop ==> forall k :: 0 <= k < num ==> start <= u[k] <= stop
  {
    if num == 0 then []
    else if num == 1 then [start]
    else
      var step := (stop - start) / (num - 1) as real;
      var u := seq(num, k requires 0 <= k < num => start + k as real * step);
      LinspaceSteps(start, stop, num, u);
      u
  }

  lemma LinspaceSteps(start: real, stop: real, num: nat, u: seq<real>)
    requires num >= 2 && |u| == num
    requires forall k :: 0 <= k < num ==> u[k] == start + k as real * ((stop - start) / (num - 1) as real)
    ensures u[num - 1] == stop
    ensures start <= stop ==> forall k :: 0 <= k < num ==> start <= u[k] <= stop
  {
    var m := (num - 1) as real;
    var step := (stop - start) / m;
    assert m * step == stop - start;
    if start <= stop {
      assert 0.0 <= step;
      forall k | 0 <= k < num ensures start <= u[k] <= stop {
        MulMonotone(k as real, m, step);
        assert u[k] == start + k as real * step;
        assert 0.0 <= k as real * step <= m * step;
      }
    }
  }

  lemma MulMonotone(a: real, b: real, s: real)
    requires 0.0 <= a <= b && 0.0 <= s
    ensures 0.0 <= a * s <= b * s
  {
  }

  // ---------------------------------------------------------------------------
  // np.interp

  /**
   The segment that `q` falls in: the last index `k` with `xp[k] <= q`, which
   is the index numpy's binary search returns.
   */
  function Bracket(q: real, xp: seq<real>, j: nat): (k: nat)
    requires j < |xp| - 1
    requires xp[j] <= q < xp[|xp| - 1]
    ensures j <= k < |xp| - 1
    ensures xp[k] <= q < xp[k + 1]
    decreases |xp| - j
  {
    if q < xp[j + 1] then j else Bracket(q, xp, j + 1)
  }

  /**
   `np.interp(q, xp, fp)` for one query: `fp[0]` left of the data, `fp[-1]` at
   or right of the last knot, and otherwise the straight line through the two
   knots around `q`.
   */
  function Interp(q: real, xp: seq<real>, fp: seq<real>): real
    requires |xp| == |fp| >= 1
    requires NonDecreasing(xp)
  {
    if q < xp[0] then fp[0]
    else if q >= xp[|xp| - 1] then fp[|fp| - 1]
    else
      var j := Bracket(q, xp, 0);
      var slope := (fp[j + 1] - fp[j]) / (xp[j + 1] - xp[j]);
      slope * (q - xp[j]) + fp[j]
  }

  /** Knots with the same abscissa carry the same value. */
  ghost predicate Consistent(xp: seq<real>, fp: seq<real>)
    requires |xp| == |fp|
  {
    forall i, j :: 0 <= i < |xp| && 0 <= j < |xp| && xp[i] == xp[j] ==> fp[i] == fp[j]
  }

  /** Interpolating at a knot returns that knot's value. */
  lemma InterpAtKnot(xp: seq<real>, fp: seq<real>, k: nat)
    requires |xp| == |fp| >= 1
    requires NonDecreasing(xp)
    requires Consistent(xp, fp)
    requires k < |xp|
    ensures Interp(xp[k], xp, fp) == fp[k]
  {
    var q := xp[k];
    if q >= xp[|xp| - 1] {
      assert xp[k] == xp[|xp| - 1];
    } else {
      var j := Bracket(q, xp, 0);
      if j < k {
        assert false;
      }
      assert xp[k] <= xp[j];
    }
  }

  /**
   Inside the data range, `Interp` lies on the segment between two consecutive
   knots, the same fraction `t` of the way along in both coordinates.
   */
  lemma InterpOnSegment(q: real, xp: seq<real>, path: Path) returns (j: nat, t: real)
    requires |xp| == |path| >= 2
    requires NonDecreasing(xp)
    requires xp[0] <= q < xp[|xp| - 1]
    ensures 0 <= j < |xp| - 1
    ensures 0.0 <= t < 1.0
    ensures q == xp[j] + t * (xp[j + 1] - xp[j])
    ensures Point(Interp(q, xp, Xs(path)), Interp(q, xp, Ys(path))) == Lerp(path[j], path[j + 1], t)
  {
    j := Bracket(q, xp, 0);
    var a, b := xp[j], xp[j + 1];
    var p0, p1 := path[j], path[j + 1];
    InterpLine(q, xp, Xs(path), j);
    InterpLine(q, xp, Ys(path), j);
    t := LineAlgebra(a, b, p0.x, p1.x, q);
    LineAlgebraY(a, b, p0.y, p1.y, q, t);
  }

  lemma LineAlgebraY(a: real, b: real, fa: real, fb: real, q: real, t: real)
    requires a <= q < b
    requires t == (q - a) / (b - a)
    ensures ((fb - fa) / (b - a)) * (q - a) + fa == fa + t * (fb - fa)
  {
  }

  /** The straight line through `(a, fa)` and `(b, fb)`, evaluated at `q`, in slope form and in fraction form. */
  lemma LineAlgebra(a: real, b: real, fa: real, fb: real, q: real) returns (t: real)
    requires a <= q < b
    ensures t == (q - a) / (b - a)
    ensures 0.0 <= t < 1.0
    ensures q == a + t * (b - a)
    ensures ((fb - fa) / (b - a)) * (q - a) + fa == fa + t * (fb - fa)
  {
    var len := b - a;
    t := (q - a) / len;
    assert t * len == q - a;
    var slope := (fb - fa) / len;
    assert slope * len == fb - fa;
    calc {
      slope * (q - a);
      slope * (t * len);
      t * (slope * len);
      t * (fb - fa);
    }
  }

  // ---------------------------------------------------------------------------
  // interpolate_path

  /** The total length of the polyline, `dist[-1]`. */
  function TotalLength(norm: seq<real> -> real, path: Path): (d: real)
    requires IsEuclideanNorm(norm)
    requires |path| >= 1
    ensures 0.0 <= d
  {
    ArcLengths(norm, path)[|path| - 1]
  }

  /** Every path the resampler accepts: numpy only fails on an empty path it must resample. */
  predicate Resamplable(path: Path, numPoints: nat) {
    |path| == numPoints || |path| >= 1
  }

  /**
   `interpolate_path(path, num_points)`: the path itself when it already has
   `num_points` points, and otherwise `num_points` points at evenly spaced arc
   lengths from 0 to the total length.
   */
  function InterpolatePath(norm: seq<real> -> real, path: Path, numPoints: nat): (r: Path)
    requires IsEuclideanNorm(norm)
    requires Resamplable(path, numPoints)
    ensures |r| == numPoints
    ensures |path| == numPoints ==> r == path
  {
    if |path| == numPoints then path
    else
      var dist := ArcLengths(norm, path);
      var u := Linspace(0.0, dist[|path| - 1], numPoints);
      seq(numPoints, k requires 0 <= k < numPoints =>
        Point(Interp(u[k], dist, Xs(path)), Interp(u[k], dist, Ys(path))))
  }

  /**
   `p` is the point of the polyline at arc length `s`: on some segment, the
   fraction of the way along it that puts it at arc length `s`.
   */
  ghost predicate AtArcLength(norm: seq<real> -> real, path: Path, s: real, p: Point)
    requires IsEuclideanNorm(norm)
    requires |path| >= 1
  {
    || (|path| == 1 && s == 0.0 && p == path[0])
    || exists j, t :: OnSegmentAt(path, ArcLengths(norm, path), j, t, s, p)
  }

  /** `p` is a fraction `t` of the way along segment `j`, whose ends lie at arc lengths `dist[j]` and `dist[j + 1]`. */
  predicate OnSegmentAt(path: Path, dist: seq<real>, j: int, t: real, s: real, p: Point)
    requires |dist| == |path|
  {
    && 0 <= j < |path| - 1 && 0.0 <= t <= 1.0
    && s == dist[j] + t * (dist[j + 1] - dist[j])
    && p == Lerp(path[j], path[j + 1], t)
  }

  /** Arc lengths equal between knots carry equal coordinates, as `Interp` needs. */
  lemma ArcLengthsConsistent(norm: seq<real> -> real, path: Path)
    requires IsEuclideanNorm(norm)
    requires |path| >= 1
    ensures Consistent(ArcLengths(norm, path), Xs(path))
    ensures Consistent(ArcLengths(norm, path), Ys(path))
  {
    var dist := ArcLengths(norm, path);
    forall i, j | 0 <= i < |dist| && 0 <= j < |dist| && dist[i] == dist[j]
      ensures path[i] == path[j]
    {
      if i <= j {
        SameArcLengthSamePoint(norm, path, i, j);
      } else {
        SameArcLengthSamePoint(norm, path, j, i);
      }
    }
  }

  /**
   Resampling keeps the endpoints: the first resampled point is the first
   input point, and with two or more targets the last one is the last input
   point.
   */
  lemma InterpolateEndpoints(norm: seq<real> -> real, path: Path, numPoints: nat)
    requires IsEuclideanNorm(norm)
    requires |path| >= 1 && numPoints >= 1
    ensures InterpolatePath(norm, path, numPoints)[0] == path[0]
    ensures numPoints >= 2 ==> InterpolatePath(norm, path, numPoints)[numPoints - 1] == path[|path| - 1]
  {
    if |path| != numPoints {
      var dist := ArcLengths(norm, path);
      ArcLengthsConsistent(norm, path);
      InterpAtKnot(dist, Xs(path), 0);
      InterpAtKnot(dist, Ys(path), 0);
      if numPoints >= 2 {
        InterpAtKnot(dist, Xs(path), |path| - 1);
        InterpAtKnot(dist, Ys(path), |path| - 1);
      }
    }
  }

  /**
   Every resampled point is the point of the polyline at its target arc
   length: entry `k` sits at `Linspace(0, total, numPoints)[k]`.
   */
  lemma InterpolateAtArcLength(norm: seq<real> -> real, path: Path, numPoints: nat, k: nat)
    requires IsEuclideanNorm(norm)
    requires |path| >= 1 && |path| != numPoints
    requires k < numPoints
    ensures AtArcLength(norm, path, Linspace(0.0, TotalLength(norm, path), numPoints)[k],
                        InterpolatePath(norm, path, numPoints)[k])
  {
    var u := Linspace(0.0, TotalLength(norm, path), numPoints);
    InterpAtArcLength(norm, path, u[k]);
  }

  /** Interpolating both coordinates at arc length `q` in `[0, total]` gives the point at that arc length. */
  lemma InterpAtArcLength(norm: seq<real> -> real, path: Path, q: real)
    requires IsEuclideanNorm(norm)
    requires |path| >= 1
    requires 0.0 <= q <= TotalLength(norm, path)
    ensures var dist := ArcLengths(norm, path);
            AtArcLength(norm, path, q, Point(Interp(q, dist, Xs(path)), Interp(q, dist, Ys(path))))
  {
    var dist := ArcLengths(norm, path);
    if |path| == 1 {
    } else if q >= dist[|path| - 1] {
      InterpAtArcLengthEnd(norm, path, dist, q);
    } else {
      var j, t := InterpAtArcLengthInside(norm, path, dist, q);
    }
  }

  lemma InterpAtArcLengthEnd(norm: seq<real> -> real, path: Path, dist: seq<real>, q: real)
    requires IsEuclideanNorm(norm)
    requires |path| >= 2
    requires dist == ArcLengths(norm, path)
    requires q == dist[|path| - 1]
    ensures OnSegmentAt(path, dist, |path| - 2, 1.0, q, Point(Interp(q, dist, Xs(path)), Interp(q, dist, Ys(path))))
  {
    var j := |path| - 2;
    var p := Point(Interp(q, dist, Xs(path)), Interp(q, dist, Ys(path)));
    assert p == path[j + 1];
    LerpEnd(path[j], path[j + 1]);
  }

  lemma InterpAtArcLengthInside(norm: seq<real> -> real, path: Path, dist: seq<real>, q: real)
    returns (j: nat, t: real)
    requires IsEuclideanNorm(norm)
    requires |path| >= 2
    requires dist == ArcLengths(norm, path)
    requires 0.0 <= q < dist[|path| - 1]
    ensures OnSegmentAt(path, dist, j, t, q, Point(Interp(q, dist, Xs(path)), Interp(q, dist, Ys(path))))
  {
    j, t := InterpOnSegment(q, dist, path);
  }

  lemma LerpEnd(p: Point, q: Point)
    ensures Lerp(p, q, 1.0) == q
  {
  }

  // ---------------------------------------------------------------------------
  // Moving the path moves the resampled path

  lemma SubTranslate(p: Point, q: Point, v: Point)
    ensures Sub(Add(p, v), Add(q, v)) == Sub(p, q)
  {
  }

  /** Segment lengths do not see a common offset. */
  lemma ArcLengthsTranslate(norm: seq<real> -> real, path: Path, v: Point)
    requires IsEuclideanNorm(norm)
    requires |path| >= 1
    ensures ArcLengths(norm, Translate(path, v)) == ArcLengths(norm, path)
  {
    var moved := Translate(path, v);
    var lhs, rhs := SegmentLengths(norm, moved), SegmentLengths(norm, path);
    forall i | 0 <= i < |path| - 1 ensures lhs[i] == rhs[i] {
      SubTranslate(path[i + 1], path[i], v);
    }
    assert lhs == rhs;
  }

  /** Adding `c` to every value adds `c` to the interpolated value. */
  lemma InterpShift(q: real, xp: seq<real>, fp: seq<real>, gp: seq<real>, c: real)
    requires |xp| == |fp| == |gp| >= 1
    requires NonDecreasing(xp)
    requires forall i :: 0 <= i < |xp| ==> gp[i] == fp[i] + c
    ensures Interp(q, xp, gp) == Interp(q, xp, fp) + c
  {
    if xp[0] <= q < xp[|xp| - 1] {
      var j := Bracket(q, xp, 0);
      assert gp[j + 1] - gp[j] == fp[j + 1] - fp[j];
    }
  }

  /** Entry `k` of the resampling branch, spelled out. */
  lemma InterpolateAt(norm: seq<real> -> real, path: Path, numPoints: nat, k: nat)
    requires IsEuclideanNorm(norm)
    requires |path| >= 1 && |path| != numPoints && k < numPoints
    ensures var dist := ArcLengths(norm, path);
            var u := Linspace(0.0, dist[|path| - 1], numPoints);
            InterpolatePath(norm, path, numPoints)[k] == Point(Interp(u[k], dist, Xs(path)), Interp(u[k], dist, Ys(path)))
  {
  }

  /** Resampling commutes with moving every point by the same offset. */
  lemma InterpolateTranslate(norm: seq<real> -> real, path: Path, numPoints: nat, v: Point)
    requires IsEuclideanNorm(norm)
    requires Resamplable(path, numPoints)
    ensures InterpolatePath(norm, Translate(path, v), numPoints)
         == Translate(InterpolatePath(norm, path, numPoints), v)
  {
    if |path| != numPoints {
      var moved := Translate(path, v);
      ArcLengthsTranslate(norm, path, v);
      var lhs := InterpolatePath(norm, moved, numPoints);
      var rhs := Translate(InterpolatePath(norm, path, numPoints), v);
      forall k | 0 <= k < numPoints ensures lhs[k] == rhs[k] {
        InterpolateTranslateAt(norm, path, numPoints, v, k);
      }
    }
  }

  lemma InterpolateTranslateAt(norm: seq<real> -> real, path: Path, numPoints: nat, v: Point, k: nat)
    requires IsEuclideanNorm(norm)
    requires |path| >= 1 && |path| != numPoints && k < numPoints
    requires ArcLengths(norm, Translate(path, v)) == ArcLengths(norm, path)
    ensures InterpolatePath(norm, Translate(path, v), numPoints)[k]
         == Add(InterpolatePath(norm, path, numPoints)[k], v)
  {
    InterpolateTranslateX(norm, path, numPoints, v, k);
    InterpolateTranslateY(norm, path, numPoints, v, k);
    AddByCoordinates(InterpolatePath(norm, path, numPoints)[k],
                     InterpolatePath(norm, Translate(path, v), numPoints)[k], v);
  }

  lemma AddByCoordinates(a: Point, b: Point, v: Point)
    requires b.x == a.x + v.x && b.y == a.y + v.y
    ensures b == Add(a, v)
  {
  }

  lemma InterpolateTranslateX(norm: seq<real> -> real, path: Path, numPoints: nat, v: Point, k: nat)
    requires IsEuclideanNorm(norm)
    requires |path| >= 1 && |path| != numPoints && k < numPoints
    requires ArcLengths(norm, Translate(path, v)) == ArcLengths(norm, path)
    ensures InterpolatePath(norm, Translate(path, v), numPoints)[k].x
         == InterpolatePath(norm, path, numPoints)[k].x + v.x
  {
    var moved := Translate(path, v);
    var dist := ArcLengths(norm, path);
    var q := Linspace(0.0, dist[|path| - 1], numPoints)[k];
    InterpolateAt(norm, path, numPoints, k);
    InterpolateAt(norm, moved, numPoints, k);
    ColumnsTranslate(path, v);
    InterpShift(q, dist, Xs(path), Xs(moved), v.x);
  }

  lemma InterpolateTranslateY(norm: seq<real> -> real, path: Path, numPoints: nat, v: Point, k: nat)
    requires IsEuclideanNorm(norm)
    requires |path| >= 1 && |path| != numPoints && k < numPoints
    requires ArcLengths(norm, Translate(path, v)) == ArcLengths(norm, path)
    ensures InterpolatePath(norm, Translate(path, v), numPoints)[k].y
         == InterpolatePath(norm, path, numPoints)[k].y + v.y
  {
    var moved := Translate(path, v);
    var dist := ArcLengths(norm, path);
    var q := Linspace(0.0, dist[|path| - 1], numPoints)[k];
    InterpolateAt(norm, path, numPoints, k);
    InterpolateAt(norm, moved, numPoints, k);
    ColumnsTranslate(path, v);
    InterpShift(q, dist, Ys(path), Ys(moved), v.y);
  }

  lemma ColumnsTranslate(path: Path, v: Point)
    ensures forall i :: 0 <= i < |path| ==> Xs(Translate(path, v))[i] == Xs(path)[i] + v.x
    ensures forall i :: 0 <= i < |path| ==> Ys(Translate(path, v))[i] == Ys(path)[i] + v.y
  {
  }

  // ---------------------------------------------------------------------------
  // Scaling the path scales the resampled path

  /** Scaling every term scales every running total. */
  lemma CumulativeSumScaleAt(xs: seq<real>, c: real, i: nat)
    requires i <= |xs|
    ensures CumulativeSum(ScaleVector(xs, c))[i] == c * CumulativeSum(xs)[i]
  {
    PrefixSumScale(xs, c, i);
  }

  lemma PrefixSumScale(xs: seq<real>, c: real, i: nat)
    requires i <= |xs|
    ensures Sum(ScaleVector(xs, c)[..i]) == c * Sum(xs[..i])
  {
    var ys := ScaleVector(xs, c);
    SumScale(xs[..i], ys[..i], c);
  }

  lemma SegmentLengthsScale(norm: seq<real> -> real, path: Path, c: real)
    requires IsEuclideanNorm(norm)
    requires |path| >= 1 && 0.0 <= c
    ensures SegmentLengths(norm, ScalePath(path, c)) == ScaleVector(SegmentLengths(norm, path), c)
  {
    var lhs, rhs := SegmentLengths(norm, ScalePath(path, c)), ScaleVector(SegmentLengths(norm, path), c);
    forall i | 0 <= i < |lhs| ensures lhs[i] == rhs[i] {
      SegmentLengthScaledAt(norm, path, c, i);
    }
  }

  lemma SegmentLengthScaledAt(norm: seq<real> -> real, path: Path, c: real, i: nat)
    requires IsEuclideanNorm(norm)
    requires 0.0 <= c && i + 1 < |path|
    ensures SegmentLengths(norm, ScalePath(path, c))[i] == c * SegmentLengths(norm, path)[i]
  {
    var scaled := ScalePath(path, c);
    assert scaled[i + 1] == Scale(path[i + 1], c) && scaled[i] == Scale(path[i], c);
    DistanceScale(norm, path[i + 1], path[i], c);
  }

  /** Multiplying every point by `c >= 0` multiplies every cumulative length by `c`. */
  lemma ArcLengthsScale(norm: seq<real> -> real, path: Path, c: real)
    requires IsEuclideanNorm(norm)
    requires |path| >= 1 && 0.0 <= c
    ensures ArcLengths(norm, ScalePath(path, c)) == ScaleVector(ArcLengths(norm, path), c)
  {
    var lengths := SegmentLengths(norm, path);
    SegmentLengthsScale(norm, path, c);
    var lhs, rhs := CumulativeSum(ScaleVector(lengths, c)), ScaleVector(CumulativeSum(lengths), c);
    forall i | 0 <= i < |lhs| ensures lhs[i] == rhs[i] {
      CumulativeSumScaleAt(lengths, c, i);
    }
  }

  /** Evenly spaced targets up to `c * stop` are the targets up to `stop`, times `c`. */
  lemma LinspaceScale(stop: real, num: nat, c: real)
    ensures Linspace(0.0, c * stop, num) == ScaleVector(Linspace(0.0, stop, num), c)
  {
    if num >= 2 {
      var lhs, rhs := Linspace(0.0, c * stop, num), ScaleVector(Linspace(0.0, stop, num), c);
      forall k | 0 <= k < num ensures lhs[k] == rhs[k] {
        LinspaceScaleAt(stop, num, c, k, lhs[k], Linspace(0.0, stop, num)[k]);
      }
    } else if num == 1 {
      assert Linspace(0.0, c * stop, num)[0] == c * 0.0;
    }
  }

  lemma LinspaceScaleAt(stop: real, num: nat, c: real, k: nat, scaled: real, plain: real)
    requires num >= 2 && k < num
    requires scaled == 0.0 + k as real * ((c * stop - 0.0) / (num - 1) as real)
    requires plain == 0.0 + k as real * ((stop - 0.0) / (num - 1) as real)
    ensures scaled == c * plain
  {
    var m := (num - 1) as real;
    assert (c * stop) / m == c * (stop / m);
  }

  /** Inside the knots, `np.interp` is the line through any pair of knots around `q`. */
  lemma InterpLine(q: real, xp: seq<real>, fp: seq<real>, k: nat)
    requires |xp| == |fp| >= 1
    requires NonDecreasing(xp)
    requires k < |xp| - 1 && xp[k] <= q < xp[k + 1]
    ensures Interp(q, xp, fp) == ((fp[k + 1] - fp[k]) / (xp[k + 1] - xp[k])) * (q - xp[k]) + fp[k]
  {
    BracketUnique(q, xp, 0, k);
  }

  /** Among non-decreasing knots, only one segment holds `q`. */
  lemma {:induction false} BracketUnique(q: real, xp: seq<real>, j: nat, k: nat)
    requires NonDecreasing(xp)
    requires j <= k < |xp| - 1
    requires xp[j] <= q && xp[k] <= q < xp[k + 1]
    ensures Bracket(q, xp, j) == k
    decreases k - j
  {
    if j < k {
      assert xp[j + 1] <= xp[k];
      BracketUnique(q, xp, j + 1, k);
    }
  }
}

=== FILE: similarity.dfy ===
/**
 The whole comparison (`calculate_similarity_score`): resample both paths,
 normalise both, align the user path onto the reference path, and turn the
 best mean distance into a score out of 100.

 `(x) ** 2.5` needs a real power that Dafny's reals do not provide, so it is a
 parameter `pow` whose assumed facts are collected in `IsPow25`; each of them
 holds for `x ^ 2.5` on non-negative reals.
 */
module Similarity {
  import opened Geometry
  import opened Resample
  import opened Normalize
  import opened Align

  /** Scale factor applied to the distance before the power. */
  const DistanceFactor: real := 100.0

  /** The best possible score. */
  const MaxScore: real := 100.0

  /**
   `pow` behaves as `x ^ 2.5` on the non-negative reals: it is 0 at 0, 1 at 1,
   and strictly increasing.
   */
  ghost predicate IsPow25(pow: real -> real) {
    && pow(0.0) == 0.0
    && pow(1.0) == 1.0
    && (forall x, y :: 0.0 <= x < y ==> pow(x) < pow(y))
  }

  lemma PowNonNegative(pow: real -> real, x: real)
    requires IsPow25(pow)
    requires 0.0 <= x
    ensures 0.0 <= pow(x)
    ensures pow(x) == 0.0 <==> x == 0.0
  {
    if x > 0.0 {
      assert pow(0.0) < pow(x);
    }
  }

  /** A distance that the aligner can return: infinite or non-negative. */
  predicate IsDistance(d: ExtReal) {
    d.Finite? ==> 0.0 <= d.value
  }

  /**
   `max(0, 100 - (avg_dist * 100) ** 2.5)` before rounding. An infinite
   distance gives `100 - inf`, which the `max` turns into 0.
   */
  function Score(pow: real -> real, d: ExtReal): (r: real)
    requires IsPow25(pow)
    requires IsDistance(d)
    ensures 0.0 <= r <= MaxScore
    ensures r == MaxScore <==> d == Finite(0.0)
    ensures d == Infinite ==> r == 0.0
  {
    match d
    case Infinite => 0.0
    case Finite(v) =>
      PowNonNegative(pow, v * DistanceFactor);
      var raw := MaxScore - pow(v * DistanceFactor);
      if raw > 0.0 then raw else 0.0
  }

  /** The order of distances, with infinity above every finite value. */
  predicate AtMost(d: ExtReal, e: ExtReal) {
    match (d, e)
    case (_, Infinite) => true
    case (Infinite, Finite(_)) => false
    case (Finite(x), Finite(y)) => x <= y
  }

  /** A larger distance never gives a larger score. */
  lemma ScoreMonotone(pow: real -> real, d: ExtReal, e: ExtReal)
    requires IsPow25(pow)
    requires IsDistance(d) && IsDistance(e)
    requires AtMost(d, e)
    ensures Score(pow, e) <= Score(pow, d)
  {
    if d.Finite? && e.Finite? && d.value < e.value {
      ScaleStrict(d.value, e.value);
      assert pow(d.value * DistanceFactor) < pow(e.value * DistanceFactor);
    }
  }

  lemma ScaleStrict(x: real, y: real)
    requires 0.0 <= x < y
    ensures 0.0 <= x * DistanceFactor < y * DistanceFactor
  {
  }

  /** A mean distance of 0.01 is a score of 99. */
  lemma ScoreAtOneHundredth(pow: real -> real)
    requires IsPow25(pow)
    ensures Score(pow, Finite(0.01)) == 99.0
  {
    assert 0.01 * DistanceFactor == 1.0;
  }

  /** The `num_points` a caller gets by leaving the argument out. */
  const DefaultNumPoints: nat := 100

  /** The three values `calculate_similarity_score` returns, before rounding. */
  datatype Comparison = Comparison(score: real, distance: ExtReal, user: Path)

  /**
   `calculate_similarity_score(user_path, gt_path, num_points)`: the score, the
   best mean distance, and the normalised resampled user path, in that order.
   */
  function CalculateSimilarityScore(
    norm: seq<real> -> real, pow: real -> real,
    userPath: Path, gtPath: Path, numPoints: nat): (r: Comparison)
    requires IsEuclideanNorm(norm) && IsPow25(pow)
    requires Resamplable(userPath, numPoints) && Resamplable(gtPath, numPoints)
    ensures |r.user| == numPoints
    ensures r.distance == Infinite <==> numPoints == 0
    ensures IsDistance(r.distance)
    ensures 0.0 <= r.score <= MaxScore
    ensures r.score == MaxScore <==> r.distance == Finite(0.0)
  {
    var u := NormalizePath(norm, InterpolatePath(norm, userPath, numPoints));
    var g := NormalizePath(norm, InterpolatePath(norm, gtPath, numPoints));
    var avgDist := CircularDistance(norm, u, g);
    Comparison(Score(pow, avgDist), avgDist, u)
  }

  /** The returned user path is centred on the origin. */
  lemma ComparisonUserCentred(
    norm: seq<real> -> real, pow: real -> real,
    userPath: Path, gtPath: Path, numPoints: nat)
    requires IsEuclideanNorm(norm) && IsPow25(pow)
    requires Resamplable(userPath, numPoints) && Resamplable(gtPath, numPoints)
    requires numPoints > 0
    ensures Centroid(CalculateSimilarityScore(norm, pow, userPath, gtPath, numPoints).user) == Origin
  {
  }

  /** A path compared with itself scores 100 at distance 0. */
  lemma SelfComparison(norm: seq<real> -> real, pow: real -> real, path: Path, numPoints: nat)
    requires IsEuclideanNorm(norm) && IsPow25(pow)
    requires Resamplable(path, numPoints)
    requires numPoints > 0
    ensures CalculateSimilarityScore(norm, pow, path, path, numPoints).distance == Finite(0.0)
    ensures CalculateSimilarityScore(norm, pow, path, path, numPoints).score == MaxScore
  {
    var u := NormalizePath(norm, InterpolatePath(norm, path, numPoints));
    CircularDistanceSelf(norm, u);
  }

  /**
   Moving the whole user drawing by a fixed offset changes nothing in the
   result: not the score, not the distance, not the returned path.
   */
  lemma TranslationInvariance(
    norm: seq<real> -> real, pow: real -> real,
    userPath: Path, gtPath: Path, numPoints: nat, v: Point)
    requires IsEuclideanNorm(norm) && IsPow25(pow)
    requires Resamplable(userPath, numPoints) && Resamplable(gtPath, numPoints)
    ensures Resamplable(Translate(userPath, v), numPoints)
    ensures CalculateSimilarityScore(norm, pow, Translate(userPath, v), gtPath, numPoints)
         == CalculateSimilarityScore(norm, pow, userPath, gtPath, numPoints)
  {
    var resampled := InterpolatePath(norm, userPath, numPoints);
    InterpolateTranslate(norm, userPath, numPoints, v);
    NormalizeTranslate(norm, resampled, v);
  }

  // ---------------------------------------------------------------------------
  // Paths that already have `numPoints` points

  /**
   With both paths already at `numPoints` points, starting the user path at a
   different point changes neither the score nor the distance.
   */
  lemma StartPointInvariance(
    norm: seq<real> -> real, pow: real -> real,
    userPath: Path, gtPath: Path, numPoints: nat, j: int)
    requires IsEuclideanNorm(norm) && IsPow25(pow)
    requires |userPath| == |gtPath| == numPoints
    requires 0 <= j < numPoints
    ensures var moved := CalculateSimilarityScore(norm, pow, Roll(userPath, -j), gtPath, numPoints);
            var orig := CalculateSimilarityScore(norm, pow, userPath, gtPath, numPoints);
            moved.score == orig.score && moved.distance == orig.distance
  {
    NormalizeRollBack(norm, userPath, j);
    var u := NormalizePath(norm, userPath);
    var g := NormalizePath(norm, gtPath);
    CircularDistanceRollBack(norm, u, g, j);
  }

  /**
   With both paths already at `numPoints` points, multiplying the user path by
   `c > 0` and the reference path by `e > 0` changes nothing in the result.
   */
  lemma ScaleInvarianceAtNumPoints(
    norm: seq<real> -> real, pow: real -> real,
    userPath: Path, gtPath: Path, numPoints: nat, c: real, e: real)
    requires IsEuclideanNorm(norm) && IsPow25(pow)
    requires |userPath| == |gtPath| == numPoints
    requires c > 0.0 && e > 0.0
    ensures CalculateSimilarityScore(norm, pow, ScalePath(userPath, c), ScalePath(gtPath, e), numPoints)
         == CalculateSimilarityScore(norm, pow, userPath, gtPath, numPoints)
  {
    NormalizeScale(norm, userPath, c);
    NormalizeScale(norm, gtPath, e);
  }

  /**
   With both paths already at `numPoints` points, a reference that is the
   user path read from index `k` on (`gt[i] == user[(i + k) mod N]`) scores
   100 at distance 0.
   */
  lemma RotatedReference(
    norm: seq<real> -> real, pow: real -> real,
    userPath: Path, gtPath: Path, numPoints: nat, k: int)
    requires IsEuclideanNorm(norm) && IsPow25(pow)
    requires |userPath| == |gtPath| == numPoints
    requires 0 <= k < numPoints
    requires forall i :: 0 <= i < numPoints ==> gtPath[i] == userPath[(i + k) % numPoints]
    ensures CalculateSimilarityScore(norm, pow, userPath, gtPath, numPoints).distance == Finite(0.0)
    ensures CalculateSimilarityScore(norm, pow, userPath, gtPath, numPoints).score == MaxScore
  {
    forall i | 0 <= i < numPoints ensures Roll(userPath, -k)[i] == gtPath[i] {
      RollBackIndex(userPath, k, i);
    }
    assert gtPath == Roll(userPath, -k);
    NormalizeRollBack(norm, userPath, k);
    var u := NormalizePath(norm, userPath);
    var g := NormalizePath(norm, gtPath);
    assert RollsOnto(u, g, k);
    CircularDistanceZero(norm, u, g);
  }

  /** The unit square `(0,0) (1,0) (1,1) (0,1)`. */
  const UnitSquare: Path := [Point(0.0, 0.0), Point(1.0, 0.0), Point(1.0, 1.0), Point(0.0, 1.0)]

  /** The same square started from its second corner. */
  const UnitSquareFromSecond: Path := [Point(1.0, 0.0), Point(1.0, 1.0), Point(0.0, 1.0), Point(0.0, 0.0)]

  /** Resampled to 4 points, the square against its re-started copy scores 100. */
  lemma SquareScenario(norm: seq<real> -> real, pow: real -> real)
    requires IsEuclideanNorm(norm) && IsPow25(pow)
    ensures CalculateSimilarityScore(norm, pow, UnitSquare, UnitSquareFromSecond, 4).distance == Finite(0.0)
    ensures CalculateSimilarityScore(norm, pow, UnitSquare, UnitSquareFromSecond, 4).score == MaxScore
  {
    forall i | 0 <= i < 4 ensures UnitSquareFromSecond[i] == UnitSquare[(i + 1) % 4] {
      ModSmall(i + 1, 4);
    }
    RotatedReference(norm, pow, UnitSquare, UnitSquareFromSecond, 4, 1);
  }
}
